=== FILE: README.md ===
# Scenario traversal engine of a visual novel

This project models the play-session state machine of a browser visual novel
(`keisuke2/script.js`). The scenario is an immutable map from protagonist to
block name to lines. A session (`gameState`) holds the following:

- a cursor: the protagonist, the block and the index of the next line;
- the total score and the score of the last choice;
- the `isPlaying` and `isChoiceScene` flags;
- the "sticky" background and character image;
- a history of up to 50 position snapshots.

The engine does the following:

- It shows lines one tap at a time.
- When a block is exhausted, it follows the block's terminal directive. The
  directives are tried in the order `next_block`, `next_act`, `branch_act3`
  and `branch_ending`.
- It adds choice scores and jumps to the block a choice names.
- It goes back through the history.
- It shows one of four endings.
- On a true ending it records a "cleared" flag. The hidden scenario unlocks
  once both normal scenarios have been cleared.

The project has four modules:

- `Scenario` (`scenario.dfy`): the scenario store and lines, block lookup,
  and the substring scan behind `isEndingBlock`.
- `Traversal` (`traversal.dfy`): each engine operation as a function from
  session to session, and the lemmas stating what the engine promises. These
  include the session invariant, the history bound, the routing thresholds,
  the directive priority, the ending classification, the sticky images, and
  score accounting over whole runs of inputs.
- `Navigation` (`navigation.dfy`): what going back undoes, and the
  discrepancy listed under "Findings".
- `Engine` (`engine.dfy`): class `Game`, whose fields are `gameState` plus
  `localStorage` and the ending on screen. Its methods update those fields in
  place, step by step as the source does. Each method is proved to leave the
  object in the session the corresponding `Traversal` function computes, and
  the methods that the player triggers also keep the invariant.

`goBack` is modelled as the code behaves:

- It does not re-record the position it restores, so consecutive backs skip
  lines, and a back from the first line of an ending route leaves that line
  on screen (see "Findings").
- It does not check the choice-scene flag; only the back button's
  visibility does.

`Navigation` also models a corrected `goBack`:

- It is ignored during a choice, as the hidden back button implies.
- It removes exactly the entries of the step being undone: the step's own
  entry, and the copy that a `branch_ending` directive records.
- It keeps the restored position in the history, and the history after it
  is exactly the kept one, even when the re-advance follows a directive again.
- Proved about it: a back undoes a tap onto a plain line, a tap into an
  ending route, two taps into an ending route one at a time, and a choice.

## Model

| member | source | states |
|---|---|---|
| Scenario.HasInfixIff | keisuke2/script.js:137 | the front-to-back scan used for `includes` holds exactly when the pattern occurs at some position |
| Traversal.Push | keisuke2/script.js:291-305 | the new snapshot is last; below 50 entries it is appended; at 50, exactly the oldest entry is dropped; the length stays at most 50 |
| Traversal.AddToHistoryInv | keisuke2/script.js:291-305 | recording the position keeps the history bounded and every entry a valid position |
| Traversal.IsEndingBlock | keisuke2/script.js:136-138 | a block is an ending block exactly when it is named "ending" or "ending_" occurs in its name |
| Traversal.ActRoute | keisuke2/script.js:198-207 | `act3_high` exactly when the score is at least 4, `act3_mid` exactly when it is 1 to 3, `act3_low` exactly when it is below 1 |
| Traversal.ActRouteMonotone | keisuke2/script.js:198-207 | a higher score never leads to a lower act-3 route |
| Traversal.EndingRoute | keisuke2/script.js:218-232 | `ending_true` exactly when the score is at least 6; for a score of 1 to 5, `ending_normal_from_true` exactly when the last choice scored 2, `ending_normal_from_bad` exactly when it scored 0, and `ending_normal` otherwise; `ending_bad` exactly when the score is below 1; every route is an ending block |
| Traversal.Classify | keisuke2/script.js:381-394 | `hidden` exactly for the hidden protagonist; for any other protagonist, `true` exactly when the score is at least 6, `normal` exactly when it is 1 to 5, and `bad` exactly when it is below 1 |
| Traversal.EndingRouteAgreesWithClassify | keisuke2/script.js:218-232 | for a normal protagonist, the `branch_ending` route is the true, normal or bad ending block exactly when `showEnding` classifies the score as the true, normal or bad ending |
| Traversal.SaveEndingClear | keisuke2/script.js:417-419 | the protagonist's "cleared" flag is set, and every other flag is unchanged |
| Traversal.SaveEndingClearIdempotent | keisuke2/script.js:417-419 | writing the flag twice gives the same storage as writing it once |
| Traversal.DisplayLine | keisuke2/script.js:141-163 | a line changes only the choice flag and the two images; the choice flag is set exactly when it was set already or the line is a choice |
| Traversal.ShowEnding | keisuke2/script.js:379-415 | play stops; the ending shown is the classification of the protagonist and score; storage gains the cleared flag exactly on a true ending and is otherwise unchanged; nothing else changes |
| Traversal.ShowEndingKeepsUnlock | keisuke2/script.js:409-411 | once the hidden scenario is unlocked, reaching an ending never locks it again |
| Traversal.BothTrueEndingsUnlock | keisuke2/script.js:409-411 | a true ending in each of the two normal scenarios unlocks the hidden scenario |
| Traversal.StickyImages | keisuke2/script.js:151-163 | after a run of lines, the background is the last non-empty one supplied, and the character image is the last one supplied, each defaulting to its earlier value |
| Traversal.Advance | keisuke2/script.js:104-133 | nothing changes during a choice; inside the block, the line at the cursor is shown (the choice flag and both images are those that displaying it gives) and the cursor moves exactly one further within the same block; protagonist and scores never change; at most the `branch_ending` entry is added to the history |
| Traversal.BlockEnd | keisuke2/script.js:180-240 | reports a transition exactly when a directive is present, and changes nothing when it reports none; scores are unchanged; at most one history entry is added |
| Traversal.AdvancePlainLine | keisuke2/script.js:130-132 | advancing on a line of the block that is not a choice shows it, takes the images it sets, and moves the cursor one further |
| Traversal.AdvanceImages | keisuke2/script.js:104-163 | advancing through k lines of a block that are not choices moves the cursor k lines on and leaves on screen the background and character image that the last of those lines to supply one set, or the earlier ones when none does |
| Traversal.AdvanceInv | keisuke2/script.js:104-133 | advancing keeps the cursor within its block or just past its end, and keeps the history bounded and valid |
| Traversal.BlockEndInv | keisuke2/script.js:180-240 | following a directive keeps the session invariant |
| Traversal.AdvanceOutcome | keisuke2/script.js:109-128 | outside a choice, advancing either shows a line of the block it ends in or shows the ending for the session's score |
| Traversal.BlockEndOutcome | keisuke2/script.js:180-237 | a present directive leads either to a shown line or to the ending |
| Traversal.BlockEndTarget | keisuke2/script.js:180-237 | the first present directive decides the target block, whose first line is shown; only `branch_ending` records the position it leaves |
| Traversal.BlockEndPriority | keisuke2/script.js:180-240 | two terminal lines whose first present directive agrees lead to the same session, whatever their later directives say |
| Traversal.NoDirectiveShowsEnding | keisuke2/script.js:115-127 | a block end without any directive always shows the ending |
| Traversal.Start | keisuke2/script.js:86-101 | a new session belongs to the chosen protagonist, has zero scores and an empty history |
| Traversal.StartInvOutcome | keisuke2/script.js:86-101 | a new session satisfies the invariant; it shows the first line of "main" (hidden scenario) or "act1", or else the ending |
| Traversal.ChosenInv | keisuke2/script.js:261-285 | taking an option keeps the invariant before the advance |
| Traversal.SelectChoice | keisuke2/script.js:244-288 | the option's score (0 if absent) is added to the total and becomes the last choice score; the snapshot of the position with the new scores is pushed, once, or twice when the advance reaches a `branch_ending` block end; when the option names a block, exactly one is pushed and that block's first line is shown (if it has lines); when it names none and the cursor is inside the block, exactly one is pushed and the next line of the same block is shown; in both cases the choice flag is then set exactly when the line shown is a choice, and the images are those that displaying it gives |
| Traversal.HandleTap | keisuke2/script.js:354-376 | a tap does nothing when no session is playing, during a choice, when the block is absent, or while the line is still being typed out; a tap never changes the scores; an accepted tap records the current position (once, or twice when the advance reaches a `branch_ending` block end); inside the block it records it once and shows the next line of the same block |
| Traversal.GoBack | keisuke2/script.js:307-331 | with fewer than two entries nothing changes; otherwise the last two entries are removed and the older one's scores are restored; during a choice only the position is restored; otherwise, when the restored position is inside its block, the line at it is shown and the cursor moves one further; the history is always the one without the last two entries, or that one with the restored position pushed again when the re-advance follows a `branch_ending` directive |
| Traversal.RewoundInv | keisuke2/script.js:309-327 | the restored position keeps the invariant |
| Traversal.VisibleBackShortensHistory | keisuke2/script.js:436-439 | while the back button is shown, pressing it shortens the history |
| Traversal.HandleTapInv | keisuke2/script.js:372-374 | a tap keeps the invariant |
| Traversal.SelectChoiceInv | keisuke2/script.js:261-288 | a choice keeps the invariant |
| Traversal.GoBackInv | keisuke2/script.js:307-331 | going back keeps the invariant |
| Traversal.StepInv | keisuke2/script.js:261-376 | every player input keeps the invariant |
| Traversal.RunInv | keisuke2/script.js:261-376 | every sequence of inputs keeps the invariant: the cursor never passes the end of its block, and the history never exceeds 50 entries |
| Traversal.RunScore | keisuke2/script.js:263 | without going back, the total score grows by exactly the scores of the chosen options |
| Traversal.PlaythroughScore | keisuke2/script.js:86-101 | a playthrough without going back ends with the sum of the chosen scores and with the invariant intact |
| Navigation.TapThenBack | keisuke2/script.js:307-331 | a tap followed by `goBack` restores the position and scores, but the history comes back one entry short |
| Navigation.TapOnPlainLine | keisuke2/script.js:372-374 | a tap on a plain line inside a block shows the next line and records the position it left; scores, storage and the ending shown are unchanged |
| Navigation.TapsThroughPlainLines | keisuke2/script.js:372-374 | tapping through n plain lines of a block shows them one by one and records, in order, the position each tap left |
| Navigation.BackToPlainLine | keisuke2/script.js:307-331 | going back to a plain line shows the line after it and drops the last two history entries |
| Navigation.BacksFromLastLine | keisuke2/script.js:307-331 | from index 5 of five plain lines, with positions 1 to 4 recorded, one back shows index 4, two backs as written index 2, and two intended backs index 3 |
| Navigation.BackTwiceSkipsALine | keisuke2/script.js:307-331 | after the start and four taps through five plain lines, two backs land on index 2 as written, but on index 3 with the intended back |
| Navigation.Kept | keisuke2/script.js:291-331 | the corrected back keeps a prefix of the history: it drops two entries exactly when the last two are equal, and one entry otherwise |
| Navigation.GoBackIntended | keisuke2/script.js:307-331 | the corrected back changes nothing during a choice, below two entries, or when nothing would be kept; otherwise it restores the scores of the last kept entry and leaves exactly the kept history |
| Navigation.GoBackIntendedInv | keisuke2/script.js:307-331 | the corrected back keeps the invariant |
| Navigation.BackIntendedToPlainLine | keisuke2/script.js:307-331 | the corrected back to a plain line shows the line after it and leaves exactly the kept history |
| Navigation.TapThenBackIntended | keisuke2/script.js:307-331 | with the corrected back, a tap onto a plain line inside the block followed by a back is undone exactly, history included, apart from the sticky images |
| Navigation.AdvanceIntoEndingRoute | keisuke2/script.js:214-237 | advancing past a last line whose first directive is `branch_ending` records the position once and shows the first line of the ending route for the score |
| Navigation.TapIntoEndingRoute | keisuke2/script.js:214-232 | a tap on a last line whose first directive is `branch_ending` shows the first line of the ending route for the score, records the position twice, and keeps scores, storage and the ending shown |
| Navigation.BackFromEndingRouteStays | keisuke2/script.js:307-331 | as written, a back from there follows the directive again: the same line of the ending route stays on screen and the history is one entry shorter |
| Navigation.BackOverRepeatedEntry | keisuke2/script.js:307-331 | the corrected back over a history ending in two copies of a position restores the session at that position, apart from the sticky images |
| Navigation.TapIntoEndingThenBackIntended | keisuke2/script.js:307-331 | with the corrected back, a tap into an ending route followed by a back is undone exactly, history included, apart from the sticky images |
| Navigation.BackIntoEndingRoute | keisuke2/script.js:307-331 | the corrected back from the second line of an ending route shows its first line again, with the history the tap into the route left |
| Navigation.EndingRouteBackTwice | keisuke2/script.js:307-331 | with the corrected back, two taps into an ending route are undone one line at a time: the first back shows the route's first line, the second the block's last line with the history from before both taps |
| Navigation.ChoiceThenBack | keisuke2/script.js:261-331 | as written, a back right after a choice shows the choice again with the block, index and both scores from before it; the history is one entry short |
| Navigation.ChoiceThenBackIntended | keisuke2/script.js:261-331 | with the corrected back, a back right after a choice undoes it exactly, history included, apart from the sticky images |
| Engine.Game.constructor | keisuke2/script.js:2 | the engine starts with no session and with the saved flags |
| Engine.Game.SelectProtagonist | keisuke2/script.js:86-101 | the fields become the new session, and the invariant holds |
| Engine.Game.AdvanceScene | keisuke2/script.js:104-133 | the fields become the advanced session |
| Engine.Game.HandleBlockEnd | keisuke2/script.js:180-240 | the fields and the returned flag are those of the block-end function |
| Engine.Game.DisplayLine | keisuke2/script.js:141-163 | the fields become the session after the line is displayed |
| Engine.Game.DisplayChoice | keisuke2/script.js:243-244 | only the choice flag changes, and it is set |
| Engine.Game.SelectChoice | keisuke2/script.js:261-288 | the fields become the session after the choice, and the invariant is kept |
| Engine.Game.AddToHistory | keisuke2/script.js:291-305 | the history gains the current position with FIFO eviction at 50; nothing else changes |
| Engine.Game.GoBack | keisuke2/script.js:307-331 | the fields become the session after going back, and the invariant is kept |
| Engine.Game.HandleGameScreenClick | keisuke2/script.js:354-376 | the fields become the session after the tap, and the invariant is kept |
| Engine.Game.ShowEnding | keisuke2/script.js:379-415 | the fields become the session after the ending is shown |
| Engine.Game.SaveEndingClear | keisuke2/script.js:417-419 | only the storage changes, and the protagonist's flag is set in it |
| Engine.Game.CheckHiddenScenarioUnlock | keisuke2/script.js:421-428 | the hidden-scenario button is shown exactly when the hidden scenario is unlocked, which is when both normal scenarios' flags are stored as set |
| Engine.Game.ReturnToTitle | keisuke2/script.js:430-434 | play stops, nothing else changes, and the result says whether the hidden scenario is unlocked |

## Left out

- DOM rendering, `showScreen`, the event wiring and the start-up code are not modelled, because they are presentation.
- Loading the scenario over the network and parsing its JSON are not modelled. The scenario is a parameter.
- Speaker names and line text are not modelled, because they only feed rendering.
- The typewriter timer is not modelled. The tap handler's "finish the text" branch becomes the boolean parameter `stillTyping`, and that branch leaves the session unchanged.
- The tap handler's test for clicks on buttons is not modelled, because only clicks on the game screen itself are modelled.
- Traversal.HandleTap: when the index is past the end of the block, the model returns the session unchanged, as the source does. The invariant rules this case out.
- `localStorage` is a map from key to boolean. A stored `'true'` is `true`.
- `checkHiddenScenarioUnlock` only ever reveals the button and never hides it again. The model reports whether it reveals the button on this call.
- An empty block is treated like an absent one. The source reads a missing last line here and, unless the block is an ending block, would throw.
- A protagonist missing from the scenario is treated like an absent block. The source would throw.
- The `!== undefined` tests on restored scores (script.js:322-327) are always true for snapshots that `addToHistory` writes, so the model restores the scores unconditionally.
- Traversal.GoBack: going back does not restore the sticky background or character image, because snapshots do not record them. This is what the source does too.
- Scores are mathematical integers. In the source they are JavaScript numbers read from JSON, so an option score that is fractional, non-numeric or `null` is outside this model, and so is floating-point rounding in the running total.

## Findings

| source | as written | input that shows it | evidently intended | confidence | as-written member | corrected member |
|---|---|---|---|---|---|---|
| keisuke2/script.js:307-331 | `goBack` removes the last two history entries and never records the restored position again. A second back therefore skips a line. | Five plain lines in one block. Starting shows line 0, and four taps show lines 1 to 4. A first back shows line 3, and a second back shows line 1 (index 2), skipping line 2. | Only the entries of the step being undone are removed (its own entry, and the copy a `branch_ending` directive adds), the restored position stays in the history, and a directive followed again on the way records nothing, so a back undoes exactly one tap or choice. | not executed | Navigation.BackTwiceSkipsALine | Navigation.TapThenBackIntended |
| keisuke2/script.js:214-216, 307-331 | A tap on a block's last line that carries `branch_ending` records the position twice: once for the tap, once for the directive. `goBack` then restores that same position, and re-advancing from it follows the directive again. | A block whose last line carries `branch_ending` and no earlier directive, with that line on screen. One tap shows the first line of the ending route. A back leaves the same line on screen and only shortens the history by one entry. | A back undoes the tap: both entries are removed and the block's last line is on screen again. | not executed | Navigation.BackFromEndingRouteStays | Navigation.TapIntoEndingThenBackIntended |

=== FILE: engine.dfy ===
/** The game engine as the source runs it: one object whose fields are
    `gameState` (plus the persisted "cleared" flags and the ending on screen),
    updated in place by the engine's operations. Every method is proved to
    leave the object in the session that module Traversal computes. */
module Engine {
  import opened Scenario
  import opened Traversal

  class Game {
    const scenario: ScenarioData
    var currentProtagonist: string
    var currentBlock: string
    var currentIndex: nat
    var totalScore: int
    var lastChoiceScore: int
    var isPlaying: bool
    var isChoiceScene: bool
    var currentBackground: string
    var currentCharacterImage: string
    var history: seq<Snapshot>
    /** `localStorage`: the "cleared_<protagonist>" flags. */
    var storage: map<string, bool>
    /** The ending title on the ending screen, once one has been shown. */
    var endingShown: Option<EndingType>

    /** The fields as a value of the session. */
    function Session(): Traversal.State
      reads this
    {
      Traversal.State(currentProtagonist, currentBlock, currentIndex, totalScore, lastChoiceScore,
                      isPlaying, isChoiceScene, currentBackground, currentCharacterImage,
                      history, storage, endingShown)
    }

    ghost predicate Valid()
      reads this
    {
      Inv(scenario, Session())
    }

    /** The engine after loading: no session yet (`gameState` is empty). */
    constructor (sc: ScenarioData, saved: map<string, bool>)
      ensures scenario == sc
      ensures Session() == Traversal.State("", "", 0, 0, 0, false, false, "", "", [], saved, None)
      ensures Valid()
    {
      scenario := sc;
      currentProtagonist, currentBlock, currentIndex := "", "", 0;
      totalScore, lastChoiceScore := 0, 0;
      isPlaying, isChoiceScene := false, false;
      currentBackground, currentCharacterImage := "", "";
      history := [];
      storage := saved;
      endingShown := None;
    }

    /** `selectProtagonist`. */
    method SelectProtagonist(protagonistKey: string)
      modifies this
      ensures Session() == Start(scenario, old(Session()), protagonistKey)
      ensures Valid()
    {
      ghost var before := Session();
      currentProtagonist := protagonistKey;
      currentBlock := if protagonistKey == HiddenScenario then "main" else "act1";
      currentIndex := 0;
      totalScore, lastChoiceScore := 0, 0;
      isPlaying, isChoiceScene := true, false;
      currentCharacterImage, currentBackground := "", "";
      history := [];
      assert Session() == Initial(before, protagonistKey);
      AdvanceScene();
      StartInvOutcome(scenario, before, protagonistKey);
    }

    /** `advanceScene`. */
    method AdvanceScene()
      modifies this
      ensures Session() == Advance(scenario, old(Session()))
      decreases if currentIndex == 0 then 0 else 1, 1
    {
      if isChoiceScene {
        return;
      }
      var currentBlockData := BlockLines(scenario, currentProtagonist, currentBlock);
      if currentIndex >= |currentBlockData| {
        var lastLine := TerminalLine(currentBlockData);
        var hasTransition := HandleBlockEnd(lastLine);
        if !hasTransition {
          // Both branches of the source's test show the ending.
          if IsEndingBlock(currentBlock) || lastLine.ending || lastLine.lineType == EndingMarker {
            ShowEnding();
          } else {
            ShowEnding();
          }
        }
        return;
      }
      DisplayLine(currentBlockData[currentIndex]);
      currentIndex := currentIndex + 1;
    }

    /** `handleBlockEnd`: follows the first present directive and reports
        whether there was one. */
    method HandleBlockEnd(lastLine: Line) returns (hasTransition: bool)
      modifies this
      ensures (Session(), hasTransition) == BlockEnd(scenario, old(Session()), lastLine)
      decreases if HasTransition(lastLine) then 1 else 0, 0
    {
      if Truthy(lastLine.nextBlock) {
        currentBlock := lastLine.nextBlock.value;
        currentIndex := 0;
        AdvanceScene();
        return true;
      }
      if Truthy(lastLine.nextAct) {
        currentBlock := lastLine.nextAct.value;
        currentIndex := 0;
        AdvanceScene();
        return true;
      }
      if lastLine.branchAct3 {
        currentBlock := ActRoute(totalScore);
        currentIndex := 0;
        AdvanceScene();
        return true;
      }
      if lastLine.branchEnding {
        AddToHistory();
        currentBlock := EndingRoute(totalScore, lastChoiceScore);
        currentIndex := 0;
        AdvanceScene();
        return true;
      }
      return false;
    }

    /** The state updates of `displayLine`. */
    method DisplayLine(lineData: Line)
      modifies this
      ensures Session() == Traversal.DisplayLine(old(Session()), lineData)
    {
      if lineData.lineType == Choice {
        DisplayChoice();
        return;
      }
      if Truthy(lineData.background) {
        currentBackground := lineData.background.value;
      }
      if lineData.charImage.Some? {
        currentCharacterImage := lineData.charImage.value;
      }
    }

    /** The state update of `displayChoice`. */
    method DisplayChoice()
      modifies this
      ensures Session() == old(Session()).(isChoiceScene := true)
    {
      isChoiceScene := true;
    }

    /** `selectChoice`. */
    method SelectChoice(option: ChoiceOption)
      requires Valid()
      modifies this
      ensures Session() == Traversal.SelectChoice(scenario, old(Session()), option)
      ensures Valid()
    {
      ghost var before := Session();
      var score := ScoreOf(option);
      totalScore := totalScore + score;
      lastChoiceScore := score;
      isChoiceScene := false;
      assert Session() == Scored(before, option);
      if Truthy(option.nextBlock) {
        AddToHistory();
        currentBlock := option.nextBlock.value;
        currentIndex := 0;
        assert Session() == Chosen(before, option);
        AdvanceScene();
      } else {
        AddToHistory();
        assert Session() == Chosen(before, option);
        AdvanceScene();
      }
      SelectChoiceInv(scenario, before, option);
    }

    /** `addToHistory`. */
    method AddToHistory()
      modifies this
      ensures Session() == Traversal.AddToHistory(old(Session()))
      ensures old(|history|) <= HistoryLimit ==> |history| <= HistoryLimit
    {
      history := history + [Snapshot(currentBlock, currentIndex, totalScore, lastChoiceScore)];
      if |history| > HistoryLimit {
        history := history[1..];
      }
    }

    /** `goBack`. */
    method GoBack()
      requires Valid()
      modifies this
      ensures Session() == Traversal.GoBack(scenario, old(Session()))
      ensures Valid()
    {
      if |history| < 2 {
        return;
      }
      ghost var before := Session();
      ghost var h := history;
      history := history[..|history| - 1];
      var prevPosition := history[|history| - 1];
      history := history[..|history| - 1];
      assert prevPosition == h[|h| - 2] && history == h[..|h| - 2];
      currentBlock := prevPosition.block;
      currentIndex := prevPosition.index;
      totalScore := prevPosition.totalScore;
      lastChoiceScore := prevPosition.lastChoiceScore;
      assert Session() == Rewound(before);
      AdvanceScene();
      GoBackInv(scenario, before);
    }

    /** `handleGameScreenClick` for a click on the screen itself; `stillTyping`
        stands for "the text on screen is shorter than the line's text". */
    method HandleGameScreenClick(stillTyping: bool)
      requires Valid()
      modifies this
      ensures Session() == HandleTap(scenario, old(Session()), stillTyping)
      ensures Valid()
    {
      if !isPlaying || isChoiceScene {
        return;
      }
      var currentBlockData := Lookup(scenario, currentProtagonist, currentBlock);
      if currentBlockData.None? || currentIndex > |currentBlockData.value| {
        return;
      }
      if 1 <= currentIndex && stillTyping {
        // Only the typewriter text is completed.
        return;
      }
      ghost var before := Session();
      AddToHistory();
      AdvanceScene();
      HandleTapInv(scenario, before, stillTyping);
    }

    /** `showEnding`. */
    method ShowEnding()
      modifies this
      ensures Session() == Traversal.ShowEnding(old(Session()))
    {
      var protagonistKey := currentProtagonist;
      var endingType := Classify(protagonistKey, totalScore);
      endingShown := Some(endingType);
      if endingType == TrueEnd && protagonistKey != HiddenScenario {
        SaveEndingClear(protagonistKey);
      }
      isPlaying := false;
    }

    /** `saveEndingClear`. */
    method SaveEndingClear(protagonistKey: string)
      modifies this
      ensures Session() == old(Session()).(storage := Traversal.SaveEndingClear(old(storage), protagonistKey))
    {
      storage := storage[ClearedKey(protagonistKey) := true];
    }

    /** `checkHiddenScenarioUnlock`: whether the hidden scenario button is shown. */
    method CheckHiddenScenarioUnlock() returns (shown: bool)
      ensures shown <==> HiddenUnlocked(storage)
    {
      var shouCleared := ClearedKey(ShouScenario) in storage && storage[ClearedKey(ShouScenario)];
      var syouCleared := ClearedKey(SyouScenario) in storage && storage[ClearedKey(SyouScenario)];
      shown := shouCleared && syouCleared;
    }

    /** `returnToTitle`. */
    method ReturnToTitle() returns (hiddenButtonShown: bool)
      requires Valid()
      modifies this
      ensures Session() == old(Session()).(isPlaying := false)
      ensures hiddenButtonShown <==> HiddenUnlocked(storage)
      ensures Valid()
    {
      isPlaying := false;
      hiddenButtonShown := CheckHiddenScenarioUnlock();
    }
  }
}

=== FILE: navigation.dfy ===
/** Back navigation: what `goBack` undoes, and a corrected `goBack` that
    removes exactly the entries of the step being undone and keeps the restored
    position in the history. */
module Navigation {
  import opened Scenario
  import opened Traversal

  /** `st` shows the line that one tap from position `e` shows: same block and
      scores, the cursor one further, and the line at `e` is not a choice. */
  predicate StepsFrom(sc: ScenarioData, st: State, e: Snapshot) {
    && e.block == st.block
    && e.index + 1 == st.index
    && e.totalScore == st.totalScore
    && e.lastChoiceScore == st.lastChoiceScore
    && e.index < |Lines(sc, st)|
    && Lines(sc, st)[e.index].lineType != Choice
  }

  /** The session is in the shape a run of taps leaves it: the last history
      entry is the position the line on screen was shown from, and the next
      tap shows a further line of the same block that is not a choice. */
  predicate TapReady(sc: ScenarioData, st: State) {
    && Inv(sc, st)
    && st.isPlaying && !st.isChoiceScene
    && 1 <= |st.history| < HistoryLimit
    && StepsFrom(sc, st, st.history[|st.history| - 1])
    && st.index < |Lines(sc, st)|
    && Lines(sc, st)[st.index].lineType != Choice
  }

  /** One tap followed by `goBack` returns to the position and scores before
      the tap, but the history comes back one entry shorter: the entry for the
      restored position is gone. */
  lemma TapThenBack(sc: ScenarioData, st: State)
    requires TapReady(sc, st)
    ensures var r := GoBack(sc, HandleTap(sc, st, false));
      r == st.(history := st.history[..|st.history| - 1], background := r.background, charImage := r.charImage)
  {
    var h := st.history;
    var t := HandleTap(sc, st, false);
    assert t.history == h + [Position(st)];
    assert t.history[..|h| - 1] == h[..|h| - 1];
  }

  /** The history the corrected `goBack` keeps: the last entry goes, and so
      does an equal entry right before it, which is the copy a `branch_ending`
      directive records of the position the same tap recorded. */
  function Kept(h: seq<Snapshot>): (k: seq<Snapshot>)
    requires |h| >= 1
    ensures |k| < |h| && k == h[..|k|]
    ensures |k| == |h| - 2 <==> |h| >= 2 && h[|h| - 1] == h[|h| - 2]
    ensures |k| == |h| - 1 <==> !(|h| >= 2 && h[|h| - 1] == h[|h| - 2])
  {
    if |h| >= 2 && h[|h| - 1] == h[|h| - 2] then h[..|h| - 2] else h[..|h| - 1]
  }

  /** The corrected `goBack`: it is ignored during a choice; otherwise the
      entries of the step being undone are removed, the position before them
      is restored and stays in the history, and the session advances from
      there. The history after the back is exactly the kept one: a directive
      followed again on the way does not record its position a further time. */
  function GoBackIntended(sc: ScenarioData, st: State): (r: State)
    ensures |st.history| < 2 || st.isChoiceScene ==> r == st
    ensures |st.history| >= 2 && |Kept(st.history)| == 0 ==> r == st
    ensures |st.history| >= 2 && !st.isChoiceScene && |Kept(st.history)| > 0 ==>
      var prev := Kept(st.history)[|Kept(st.history)| - 1];
      && r.totalScore == prev.totalScore && r.lastChoiceScore == prev.lastChoiceScore
      && r.history == Kept(st.history)
  {
    var h := st.history;
    if |h| < 2 || st.isChoiceScene then st
    else
      var kept := Kept(h);
      if |kept| == 0 then st
      else Advance(sc, Restore(st.(history := kept), kept[|kept| - 1])).(history := kept)
  }

  /** The corrected `goBack` keeps the session invariant. */
  lemma GoBackIntendedInv(sc: ScenarioData, st: State)
    requires Inv(sc, st)
    ensures Inv(sc, GoBackIntended(sc, st))
  {
    var h := st.history;
    if |h| >= 2 && !st.isChoiceScene && |Kept(h)| > 0 {
      var kept := Kept(h);
      var restored := Restore(st.(history := kept), kept[|kept| - 1]);
      forall k | 0 <= k < |restored.history|
        ensures SnapshotValid(sc, st.protagonist, restored.history[k])
      {
        assert restored.history[k] == h[k];
      }
      AdvanceInv(sc, restored);
    }
  }

  /** With the corrected `goBack`, going back undoes a tap onto a plain line
      of the block exactly (apart from the sticky images), history included,
      and leaves the history consistent with the line on screen, so further
      backs step one line at a time. */
  lemma TapThenBackIntended(sc: ScenarioData, st: State)
    requires TapReady(sc, st)
    ensures var r := GoBackIntended(sc, HandleTap(sc, st, false));
      && r == st.(background := r.background, charImage := r.charImage)
      && StepsFrom(sc, r, r.history[|r.history| - 1])
  {
    var h := st.history;
    var t := HandleTap(sc, st, false);
    assert t.history == h + [Position(st)];
    assert t.history[|h|].index != t.history[|h| - 1].index;
    assert Kept(t.history) == h;
  }

  /** The line at `index` of `block` exists and is not a choice. */
  predicate PlainLineAt(sc: ScenarioData, protagonist: string, block: string, index: nat) {
    index < |BlockLines(sc, protagonist, block)| && BlockLines(sc, protagonist, block)[index].lineType != Choice
  }

  /** A tap on a plain line inside a block shows the next line of the block
      and records the position it was shown from. */
  lemma TapOnPlainLine(sc: ScenarioData, st: State)
    requires st.isPlaying && !st.isChoiceScene && 1 <= st.index
    requires Lookup(sc, st.protagonist, st.block).Some?
    requires PlainLineAt(sc, st.protagonist, st.block, st.index)
    requires |st.history| < HistoryLimit
    ensures var r := HandleTap(sc, st, false);
      && r.protagonist == st.protagonist && r.block == st.block && r.index == st.index + 1
      && r.history == st.history + [Position(st)]
      && r.isPlaying && !r.isChoiceScene
      && r.totalScore == st.totalScore && r.lastChoiceScore == st.lastChoiceScore
      && r.storage == st.storage && r.endingShown == st.endingShown
  {
    assert AddToHistory(st).history == st.history + [Position(st)];
  }

  /** Going back (as written) to a plain line shows the line after it and
      leaves the history without its last two entries. */
  lemma BackToPlainLine(sc: ScenarioData, st: State)
    requires !st.isChoiceScene && |st.history| >= 2
    requires var prev := st.history[|st.history| - 2];
      PlainLineAt(sc, st.protagonist, prev.block, prev.index)
    ensures var r := GoBack(sc, st);
      var prev := st.history[|st.history| - 2];
      && r.protagonist == st.protagonist && r.block == prev.block && r.index == prev.index + 1
      && r.history == st.history[..|st.history| - 2]
      && !r.isChoiceScene
  {
  }

  /** Going back (corrected) to a plain line shows the line after it and
      leaves the kept history. */
  lemma BackIntendedToPlainLine(sc: ScenarioData, st: State)
    requires !st.isChoiceScene && |st.history| >= 2 && |Kept(st.history)| > 0
    requires var prev := Kept(st.history)[|Kept(st.history)| - 1];
      PlainLineAt(sc, st.protagonist, prev.block, prev.index)
    ensures var r := GoBackIntended(sc, st);
      var prev := Kept(st.history)[|Kept(st.history)| - 1];
      && r.protagonist == st.protagonist && r.block == prev.block && r.index == prev.index + 1
      && r.history == Kept(st.history)
      && !r.isChoiceScene
  {
  }

  /** The terminal line carries `branch_ending` as its first present directive. */
  predicate EndingDirective(l: Line) {
    !Truthy(l.nextBlock) && !Truthy(l.nextAct) && !l.branchAct3 && l.branchEnding
  }

  /** The last line of the block, which carries `branch_ending`, is on screen
      and was shown by a tap; the ending route it leads to starts with a plain
      line; and the history has room for the two entries the next tap adds. */
  predicate AtEndingDirective(sc: ScenarioData, st: State) {
    && Inv(sc, st)
    && st.isPlaying && !st.isChoiceScene
    && 1 <= |st.history| && |st.history| + 2 <= HistoryLimit
    && StepsFrom(sc, st, st.history[|st.history| - 1])
    && st.index == |Lines(sc, st)|
    && EndingDirective(Lines(sc, st)[st.index - 1])
    && PlainLineAt(sc, st.protagonist, EndingRoute(st.totalScore, st.lastChoiceScore), 0)
  }

  /** Advancing past a last line whose first directive is `branch_ending`
      records the position once and shows the first line of the ending route
      for the score. */
  lemma AdvanceIntoEndingRoute(sc: ScenarioData, x: State)
    requires !x.isChoiceScene && 1 <= x.index && x.index == |Lines(sc, x)|
    requires EndingDirective(Lines(sc, x)[x.index - 1])
    requires PlainLineAt(sc, x.protagonist, EndingRoute(x.totalScore, x.lastChoiceScore), 0)
    requires |x.history| < HistoryLimit
    ensures var r := Advance(sc, x);
      && r.protagonist == x.protagonist
      && r.block == EndingRoute(x.totalScore, x.lastChoiceScore) && r.index == 1
      && r.history == x.history + [Position(x)]
      && r.isPlaying == x.isPlaying && !r.isChoiceScene
      && r.storage == x.storage && r.endingShown == x.endingShown
  {
    var last := Lines(sc, x)[x.index - 1];
    var routed := AddToHistory(x).(block := EndingRoute(x.totalScore, x.lastChoiceScore), index := 0);
    assert routed.history == x.history + [Position(x)];
    assert BlockEnd(sc, x, last).0 == Advance(sc, routed);
    assert Advance(sc, x) == BlockEnd(sc, x, last).0;
  }

  /** A tap on the last line shows the first line of the ending route and
      records the position twice: once for the tap, once for the directive. */
  lemma TapIntoEndingRoute(sc: ScenarioData, st: State)
    requires AtEndingDirective(sc, st)
    ensures var t := HandleTap(sc, st, false);
      && t.protagonist == st.protagonist
      && t.block == EndingRoute(st.totalScore, st.lastChoiceScore) && t.index == 1
      && t.history == st.history + [Position(st), Position(st)]
      && t.totalScore == st.totalScore && t.lastChoiceScore == st.lastChoiceScore
      && t.isPlaying && !t.isChoiceScene
      && t.storage == st.storage && t.endingShown == st.endingShown
  {
    var tapped := AddToHistory(st);
    assert tapped.history == st.history + [Position(st)];
    AdvanceIntoEndingRoute(sc, tapped);
  }

  /** As written, going back from the first line of the ending route restores
      the position of the last line, whose re-advance follows the directive
      again: the same line stays on screen and the history only gets one
      entry shorter. */
  lemma BackFromEndingRouteStays(sc: ScenarioData, st: State)
    requires AtEndingDirective(sc, st)
    ensures var t := HandleTap(sc, st, false);
      var r := GoBack(sc, t);
      && r.block == t.block && r.index == t.index
      && r.history == t.history[..|t.history| - 1]
  {
    TapIntoEndingRoute(sc, st);
    var t := HandleTap(sc, st, false);
    var last := Lines(sc, st)[st.index - 1];
    var rewound := Rewound(t);
    assert rewound == st.(background := t.background, charImage := t.charImage);
    var routed := AddToHistory(rewound).(block := EndingRoute(st.totalScore, st.lastChoiceScore), index := 0);
    assert routed.history == st.history + [Position(st)];
    assert BlockEnd(sc, rewound, last).0 == Advance(sc, routed);
    assert Advance(sc, rewound) == BlockEnd(sc, rewound, last).0;
    assert t.history[..|t.history| - 1] == st.history + [Position(st)];
  }

  /** With the corrected `goBack`, going back from the first line of the
      ending route undoes the tap exactly (apart from the sticky images): the
      last line of the block is on screen again and both entries are gone. */
  lemma TapIntoEndingThenBackIntended(sc: ScenarioData, st: State)
    requires AtEndingDirective(sc, st)
    ensures var r := GoBackIntended(sc, HandleTap(sc, st, false));
      && r == st.(background := r.background, charImage := r.charImage)
      && StepsFrom(sc, r, r.history[|r.history| - 1])
  {
    TapIntoEndingRoute(sc, st);
    BackOverRepeatedEntry(sc, st, HandleTap(sc, st, false));
  }

  /** The corrected back from a session `t` whose history ends in two copies
      of the position of `st` restores `st`, apart from the sticky images. */
  lemma BackOverRepeatedEntry(sc: ScenarioData, st: State, t: State)
    requires st.isPlaying && !st.isChoiceScene && 1 <= |st.history|
    requires StepsFrom(sc, st, st.history[|st.history| - 1])
    requires t.protagonist == st.protagonist && t.isPlaying && !t.isChoiceScene
    requires t.history == st.history + [Position(st), Position(st)]
    requires t.storage == st.storage && t.endingShown == st.endingShown
    ensures var r := GoBackIntended(sc, t);
      && r == st.(background := r.background, charImage := r.charImage)
      && StepsFrom(sc, r, r.history[|r.history| - 1])
  {
    var h := st.history;
    assert Kept(t.history) == h;
    var restored := Restore(t.(history := h), h[|h| - 1]);
    assert restored == st.(index := st.index - 1, background := t.background, charImage := t.charImage);
    AdvancePlainLine(sc, restored);
  }

  /** With the corrected `goBack`, two taps into an ending route are undone
      one line at a time: the first back shows the route's first line again,
      with the history the first tap left, and the second back shows the last
      line of the block again, with the history before both taps. */
  lemma EndingRouteBackTwice(sc: ScenarioData, st: State)
    requires AtEndingDirective(sc, st) && |st.history| + 3 <= HistoryLimit
    requires PlainLineAt(sc, st.protagonist, EndingRoute(st.totalScore, st.lastChoiceScore), 1)
    ensures var t1 := HandleTap(sc, st, false);
      var b1 := GoBackIntended(sc, HandleTap(sc, t1, false));
      var b2 := GoBackIntended(sc, b1);
      && b1.block == t1.block && b1.index == t1.index && b1.history == t1.history
      && b2 == st.(background := b2.background, charImage := b2.charImage)
  {
    TapIntoEndingRoute(sc, st);
    var t1 := HandleTap(sc, st, false);
    TapOnPlainLine(sc, t1);
    var t2 := HandleTap(sc, t1, false);
    BackIntoEndingRoute(sc, st, t1, t2);
    BackOverRepeatedEntry(sc, st, GoBackIntended(sc, t2));
  }

  /** The corrected back from the second line of the ending route shows its
      first line again and leaves the history the tap into the route left. */
  lemma BackIntoEndingRoute(sc: ScenarioData, st: State, t1: State, t2: State)
    requires AtEndingDirective(sc, st) && |st.history| + 3 <= HistoryLimit
    requires PlainLineAt(sc, st.protagonist, EndingRoute(st.totalScore, st.lastChoiceScore), 1)
    requires t1.protagonist == st.protagonist
    requires t1.block == EndingRoute(st.totalScore, st.lastChoiceScore) && t1.index == 1
    requires t1.history == st.history + [Position(st), Position(st)]
    requires t2.protagonist == st.protagonist && t2.block == t1.block && t2.index == 2
    requires t2.history == t1.history + [Position(t1)]
    requires t2.isPlaying && !t2.isChoiceScene
    requires t2.totalScore == st.totalScore && t2.lastChoiceScore == st.lastChoiceScore
    requires t2.storage == st.storage && t2.endingShown == st.endingShown
    ensures var b1 := GoBackIntended(sc, t2);
      && b1.protagonist == st.protagonist && b1.block == t1.block && b1.index == t1.index
      && b1.history == t1.history
      && b1.isPlaying && !b1.isChoiceScene
      && b1.storage == st.storage && b1.endingShown == st.endingShown
  {
    var p := Position(st);
    if t1.block == st.block {
      assert st.index >= 2;
    }
    assert Position(t1) != p;
    assert Kept(t2.history) == t1.history;
    var restored := Restore(t2.(history := t1.history), p);
    assert restored == st.(history := t1.history, background := t2.background, charImage := t2.charImage);
    AdvanceIntoEndingRoute(sc, restored);
  }

  /** A choice is on screen, raised by the line before the cursor, and the
      last history entry is the position that line was shown from; the option
      taken names no block and the line after the choice is not a choice. */
  predicate ChoiceOnScreen(sc: ScenarioData, st: State, option: ChoiceOption) {
    && st.isChoiceScene && 1 <= st.index < |Lines(sc, st)|
    && Lines(sc, st)[st.index - 1].lineType == Choice
    && Lines(sc, st)[st.index].lineType != Choice
    && !Truthy(option.nextBlock)
    && 1 <= |st.history| < HistoryLimit
    && st.history[|st.history| - 1] == Snapshot(st.block, st.index - 1, st.totalScore, st.lastChoiceScore)
  }

  /** As written, going back after a choice shows the choice again with the
      position and scores from before it, and the history is one entry short. */
  lemma ChoiceThenBack(sc: ScenarioData, st: State, option: ChoiceOption)
    requires ChoiceOnScreen(sc, st, option)
    ensures var r := GoBack(sc, SelectChoice(sc, st, option));
      && r.block == st.block && r.index == st.index
      && r.totalScore == st.totalScore && r.lastChoiceScore == st.lastChoiceScore
      && r.isChoiceScene
      && r.history == st.history[..|st.history| - 1]
  {
    var h := st.history;
    var c := SelectChoice(sc, st, option);
    assert c.history == h + [Snapshot(st.block, st.index, c.totalScore, c.lastChoiceScore)];
    assert c.history[..|c.history| - 2] == h[..|h| - 1];
    assert GoBack(sc, c) == Advance(sc, Rewound(c));
  }

  /** With the corrected `goBack`, going back after a choice undoes it
      exactly (apart from the sticky images): the choice is on screen again
      with the position, scores and history from before it. */
  lemma ChoiceThenBackIntended(sc: ScenarioData, st: State, option: ChoiceOption)
    requires ChoiceOnScreen(sc, st, option)
    ensures var r := GoBackIntended(sc, SelectChoice(sc, st, option));
      r == st.(background := r.background, charImage := r.charImage)
  {
    var h := st.history;
    var c := SelectChoice(sc, st, option);
    assert SelectChoice(sc, st, option) == Advance(sc, Chosen(st, option));
    var taken := Snapshot(st.block, st.index, c.totalScore, c.lastChoiceScore);
    assert c.history == h + [taken];
    assert taken != h[|h| - 1];
    assert Kept(c.history) == h;
    var restored := Restore(c.(history := h), h[|h| - 1]);
    assert restored.index == st.index - 1 && restored.block == st.block;
  }

  /** `n` taps on the game screen, each on a fully typed line. */
  function Taps(sc: ScenarioData, st: State, n: nat): State
    decreases n
  {
    if n == 0 then st else HandleTap(sc, Taps(sc, st, n - 1), false)
  }

  /** `r` is `st` after `n` lines of its block were shown by taps, each
      tap recording the position it left, in order. */
  predicate TappedThrough(st: State, n: nat, r: State) {
    && r.protagonist == st.protagonist && r.block == st.block && r.index == st.index + n
    && r.isPlaying && !r.isChoiceScene
    && r.totalScore == st.totalScore && r.lastChoiceScore == st.lastChoiceScore
    && |r.history| == |st.history| + n && r.history[..|st.history|] == st.history
    && forall j :: |st.history| <= j < |r.history| ==>
         r.history[j] == Snapshot(st.block, st.index + (j - |st.history|), st.totalScore, st.lastChoiceScore)
  }

  /** One more tap on a plain line extends a run of taps by one. */
  lemma OneMoreTap(sc: ScenarioData, st: State, n: nat, mid: State)
    requires Lookup(sc, st.protagonist, st.block).Some? && 1 <= st.index
    requires PlainLineAt(sc, st.protagonist, st.block, st.index + n)
    requires |st.history| + n < HistoryLimit
    requires TappedThrough(st, n, mid)
    ensures TappedThrough(st, n + 1, HandleTap(sc, mid, false))
  {
    TapOnPlainLine(sc, mid);
    var r := HandleTap(sc, mid, false);
    assert r.history[..|st.history|] == mid.history[..|st.history|];
  }

  /** Tapping through `n` plain lines of a block shows them one by one and
      records, in order, each position a line was shown from. */
  lemma {:induction false} TapsThroughPlainLines(sc: ScenarioData, st: State, n: nat)
    requires st.isPlaying && !st.isChoiceScene && 1 <= st.index
    requires Lookup(sc, st.protagonist, st.block).Some?
    requires forall j :: st.index <= j < st.index + n ==> PlainLineAt(sc, st.protagonist, st.block, j)
    requires |st.history| + n <= HistoryLimit
    ensures TappedThrough(st, n, Taps(sc, st, n))
    decreases n
  {
    if n == 0 {
      assert st.history[..|st.history|] == st.history;
    } else {
      TapsThroughPlainLines(sc, st, n - 1);
      OneMoreTap(sc, st, n - 1, Taps(sc, st, n - 1));
    }
  }

  /** A block of five plain lines. */
  function FiveLines(): ScenarioData {
    map["A" := map["act1" := [EmptyLine, EmptyLine, EmptyLine, EmptyLine, EmptyLine]]]
  }

  /** Starting the five-line scenario shows its first line. */
  lemma StartFiveLines(st: State)
    ensures var s0 := Start(FiveLines(), st, "A");
      && s0.protagonist == "A" && s0.block == "act1" && s0.index == 1 && s0.history == []
      && s0.isPlaying && !s0.isChoiceScene && s0.totalScore == 0 && s0.lastChoiceScore == 0
  {
    assert |BlockLines(FiveLines(), "A", "act1")| == 5;
  }

  /** From the last of the five lines, with positions 1 to 4 recorded, two
      backs as written show index 2, and two intended backs index 3. */
  lemma BacksFromLastLine(s4: State)
    requires s4.protagonist == "A" && s4.block == "act1" && s4.index == 5 && !s4.isChoiceScene
    requires |s4.history| == 4 && forall j :: 0 <= j < 4 ==> s4.history[j] == Snapshot("act1", 1 + j, 0, 0)
    ensures GoBack(FiveLines(), s4).index == 4
    ensures GoBack(FiveLines(), GoBack(FiveLines(), s4)).index == 2
    ensures GoBackIntended(FiveLines(), GoBackIntended(FiveLines(), s4)).index == 3
  {
    var sc := FiveLines();
    var lines := BlockLines(sc, "A", "act1");
    assert |lines| == 5 && forall k | 0 <= k < 5 :: lines[k] == EmptyLine;
    BackToPlainLine(sc, s4);
    var b1 := GoBack(sc, s4);
    assert b1.history == s4.history[..2];
    BackToPlainLine(sc, b1);
    BackIntendedToPlainLine(sc, s4);
    assert s4.history[3] != s4.history[2] && Kept(s4.history) == s4.history[..3];
    var i1 := GoBackIntended(sc, s4);
    assert i1.history == s4.history[..3];
    assert i1.history[2] != i1.history[1] && Kept(i1.history) == s4.history[..2];
    BackIntendedToPlainLine(sc, i1);
  }

  /** Starting shows line 0 and four taps show lines 1 to 4; going back twice
      then shows line 1 as written (index 2), skipping line 2, where the
      intended `goBack` shows line 2 (index 3). */
  lemma BackTwiceSkipsALine(st: State)
    ensures var s4 := Taps(FiveLines(), Start(FiveLines(), st, "A"), 4);
      && s4.index == 5
      && GoBack(FiveLines(), s4).index == 4
      && GoBack(FiveLines(), GoBack(FiveLines(), s4)).index == 2
      && GoBackIntended(FiveLines(), GoBackIntended(FiveLines(), s4)).index == 3
  {
    var sc := FiveLines();
    StartFiveLines(st);
    var s0 := Start(sc, st, "A");
    assert forall j :: 1 <= j < 5 ==> PlainLineAt(sc, "A", "act1", j);
    TapsThroughPlainLines(sc, s0, 4);
    BacksFromLastLine(Taps(sc, s0, 4));
  }
}

=== FILE: scenario.dfy ===
/** The scenario store: an immutable tree protagonist -> block name -> lines.
    Only the fields the traversal engine looks at are kept; speaker names and
    dialogue text are presentation and are not part of this model. */
module Scenario {

  datatype Option<+T> = None | Some(value: T)

  /** The `type` field of a line. Only "choice" and "ending" are ever tested. */
  datatype LineType = Dialogue | Choice | EndingMarker

  /** One entry of a choice line's `options` list. */
  datatype ChoiceOption = ChoiceOption(score: Option<int>, nextBlock: Option<string>)

  /** One line record of a block. */
  datatype Line = Line(
    lineType: LineType,
    options: seq<ChoiceOption>,
    background: Option<string>,
    charImage: Option<string>,
    nextBlock: Option<string>,
    nextAct: Option<string>,
    branchAct3: bool,
    branchEnding: bool,
    ending: bool)

  type ScenarioData = map<string, map<string, seq<Line>>>

  /** The record used when a block has no last line (`{}` in the source). */
  const EmptyLine := Line(Dialogue, [], None, None, None, None, false, false, false)

  /** A string field counts as present only when it is set and non-empty
      (JavaScript truthiness of a string). */
  predicate Truthy(s: Option<string>) {
    s.Some? && s.value != ""
  }

  /** `scenarioData[protagonist][block]`; None when either key is missing. */
  function Lookup(sc: ScenarioData, protagonist: string, block: string): Option<seq<Line>> {
    if protagonist in sc && block in sc[protagonist] then Some(sc[protagonist][block]) else None
  }

  /** The lines of a block, an absent block reading as a block of no lines. */
  function BlockLines(sc: ScenarioData, protagonist: string, block: string): seq<Line> {
    match Lookup(sc, protagonist, block)
    case Some(lines) => lines
    case None => []
  }

  /** The line inspected for transition directives once a block is exhausted. */
  function TerminalLine(lines: seq<Line>): Line {
    if |lines| == 0 then EmptyLine else lines[|lines| - 1]
  }

  /** Whether the line carries any of the four block-end directives. */
  predicate HasTransition(l: Line) {
    Truthy(l.nextBlock) || Truthy(l.nextAct) || l.branchAct3 || l.branchEnding
  }

  /** `s.includes(t)`, written as a scan from the front. */
  predicate HasInfix(s: string, t: string)
    decreases |s|
  {
    if |s| < |t| then false
    else s[..|t|] == t || HasInfix(s[1..], t)
  }

  /** `t` occurs in `s` starting at position `i`. */
  predicate InfixAt(s: string, t: string, i: int) {
    0 <= i && i + |t| <= |s| && s[i..i + |t|] == t
  }

  lemma SliceOfTail(s: string, i: int, n: nat)
    requires 1 <= i && i + n <= |s|
    ensures s[1..][i - 1..i - 1 + n] == s[i..i + n]
  {
    var shifted, direct := s[1..][i - 1..i - 1 + n], s[i..i + n];
    assert |shifted| == n == |direct|;
    forall j | 0 <= j < n
      ensures shifted[j] == direct[j]
    {
      assert shifted[j] == s[1..][i - 1 + j] == s[i + j];
    }
  }

  /** `HasInfix` agrees with the positional definition of a substring. */
  lemma {:induction false} HasInfixIff(s: string, t: string)
    ensures HasInfix(s, t) <==> exists i :: InfixAt(s, t, i)
    decreases |s|
  {
    if |s| < |t| {
    } else if s[..|t|] == t {
      assert InfixAt(s, t, 0);
    } else {
      HasInfixIff(s[1..], t);
      if HasInfix(s[1..], t) {
        var i :| InfixAt(s[1..], t, i);
        SliceOfTail(s, i + 1, |t|);
        assert InfixAt(s, t, i + 1);
      } else {
        forall i | 0 <= i
          ensures !InfixAt(s, t, i)
        {
          if i == 0 {
            assert s[0..0 + |t|] == s[..|t|];
          } else if i + |t| <= |s| {
            SliceOfTail(s, i, |t|);
            assert !InfixAt(s[1..], t, i - 1);
          }
        }
      }
    }
  }
}

=== FILE: traversal.dfy ===
/** The traversal engine as functions over a value of the play session: each
    function gives the session after one engine operation. Module Engine
    performs the same operations in place on an object and is proved against
    these functions; the lemmas here state what the engine promises. */
module Traversal {
  import opened Scenario

  /** Maximum number of entries `addToHistory` keeps. */
  const HistoryLimit: nat := 50

  /** The protagonist keys of the three scenarios. */
  const HiddenScenario := "隠しシナリオ"
  const ShouScenario := "ショウ編"
  const SyouScenario := "しょう編"

  /** A history entry: the position and the two scores at the time of the push. */
  datatype Snapshot = Snapshot(block: string, index: nat, totalScore: int, lastChoiceScore: int)

  /** The four ending titles. */
  datatype EndingType = TrueEnd | NormalEnd | BadEnd | HiddenEnd

  /** `gameState`, plus the persisted "cleared" flags and the ending on screen. */
  datatype State = State(
    protagonist: string,
    block: string,
    index: nat,
    totalScore: int,
    lastChoiceScore: int,
    isPlaying: bool,
    isChoiceScene: bool,
    background: string,
    charImage: string,
    history: seq<Snapshot>,
    storage: map<string, bool>,
    endingShown: Option<EndingType>)

  /** The player inputs the engine reacts to. */
  datatype Input = Tap(stillTyping: bool) | Choose(option: ChoiceOption) | Back

  function Position(st: State): Snapshot {
    Snapshot(st.block, st.index, st.totalScore, st.lastChoiceScore)
  }

  function Lines(sc: ScenarioData, st: State): seq<Line> {
    BlockLines(sc, st.protagonist, st.block)
  }

  predicate SnapshotValid(sc: ScenarioData, protagonist: string, s: Snapshot) {
    s.index <= |BlockLines(sc, protagonist, s.block)|
  }

  /** The session invariant: the cursor is inside its block or just past its
      last line, every history entry is such a position, and the history holds
      at most 50 entries. */
  predicate Inv(sc: ScenarioData, st: State) {
    && st.index <= |Lines(sc, st)|
    && |st.history| <= HistoryLimit
    && forall k :: 0 <= k < |st.history| ==> SnapshotValid(sc, st.protagonist, st.history[k])
  }

  /** A line has just been shown: the cursor is one past a line of its block. */
  predicate Displayed(sc: ScenarioData, st: State) {
    1 <= st.index <= |Lines(sc, st)|
  }

  /** `r` is `st` after the ending screen for `st`'s protagonist and score. */
  predicate Ended(st: State, r: State) {
    !r.isPlaying && r.endingShown == Some(Classify(st.protagonist, st.totalScore))
  }

  // ----- History -----

  /** `addToHistory` on the list: append, then drop the oldest entry once
      there are more than 50. */
  function Push(h: seq<Snapshot>, s: Snapshot): (r: seq<Snapshot>)
    ensures |r| > 0 && r[|r| - 1] == s
    ensures |h| < HistoryLimit ==> r == h + [s]
    ensures |h| >= HistoryLimit ==> r == h[1..] + [s]
    ensures |h| <= HistoryLimit ==> |r| <= HistoryLimit
  {
    var grown := h + [s];
    if |grown| > HistoryLimit then grown[1..] else grown
  }

  function AddToHistory(st: State): State {
    st.(history := Push(st.history, Position(st)))
  }

  lemma AddToHistoryInv(sc: ScenarioData, st: State)
    requires Inv(sc, st)
    ensures Inv(sc, AddToHistory(st))
  {
    var h := AddToHistory(st).history;
    forall k | 0 <= k < |h|
      ensures SnapshotValid(sc, st.protagonist, h[k])
    {
      if k == |h| - 1 {
      } else if |st.history| < HistoryLimit {
        assert h[k] == st.history[k];
      } else {
        assert h[k] == st.history[k + 1];
      }
    }
  }

  /** The position a history entry restores. */
  function Restore(st: State, s: Snapshot): State {
    st.(block := s.block, index := s.index, totalScore := s.totalScore, lastChoiceScore := s.lastChoiceScore)
  }

  // ----- Block names and routing -----

  /** `isEndingBlock`: the name is "ending" or contains "ending_". */
  function IsEndingBlock(name: string): (r: bool)
    ensures r <==> name == "ending" || exists i :: InfixAt(name, "ending_", i)
  {
    HasInfixIff(name, "ending_");
    name != "" && (HasInfix(name, "ending_") || name == "ending")
  }

  /** The act-3 block chosen by `branch_act3`. */
  function ActRoute(score: int): (r: string)
    ensures r == "act3_high" <==> score >= 4
    ensures r == "act3_mid" <==> 1 <= score < 4
    ensures r == "act3_low" <==> score < 1
  {
    if score >= 4 then "act3_high"
    else if score >= 1 then "act3_mid"
    else "act3_low"
  }

  /** The act-3 routes in order of score. */
  function ActLevel(route: string): nat {
    if route == "act3_high" then 2 else if route == "act3_mid" then 1 else 0
  }

  /** A higher score never leads to a lower act-3 route. */
  lemma ActRouteMonotone(s1: int, s2: int)
    requires s1 <= s2
    ensures ActLevel(ActRoute(s1)) <= ActLevel(ActRoute(s2))
  {
  }

  /** The ending block chosen by `branch_ending`. */
  function EndingRoute(score: int, lastChoice: int): (r: string)
    ensures r == "ending_true" <==> score >= 6
    ensures r == "ending_normal_from_true" <==> 1 <= score < 6 && lastChoice == 2
    ensures r == "ending_normal_from_bad" <==> 1 <= score < 6 && lastChoice == 0
    ensures r == "ending_normal" <==> 1 <= score < 6 && lastChoice != 2 && lastChoice != 0
    ensures r == "ending_bad" <==> score < 1
    ensures IsEndingBlock(r)
  {
    assert InfixAt("ending_true", "ending_", 0);
    assert InfixAt("ending_normal_from_true", "ending_", 0);
    assert InfixAt("ending_normal_from_bad", "ending_", 0);
    assert InfixAt("ending_normal", "ending_", 0);
    assert InfixAt("ending_bad", "ending_", 0);
    if score >= 6 then "ending_true"
    else if score >= 1 then
      (if lastChoice == 2 then "ending_normal_from_true"
       else if lastChoice == 0 then "ending_normal_from_bad"
       else "ending_normal")
    else "ending_bad"
  }

  /** The ending type `showEnding` displays. */
  function Classify(protagonist: string, score: int): (r: EndingType)
    ensures r == HiddenEnd <==> protagonist == HiddenScenario
    ensures r == TrueEnd <==> protagonist != HiddenScenario && score >= 6
    ensures r == NormalEnd <==> protagonist != HiddenScenario && 1 <= score < 6
    ensures r == BadEnd <==> protagonist != HiddenScenario && score < 1
  {
    if protagonist == HiddenScenario then HiddenEnd
    else if score >= 6 then TrueEnd
    else if score >= 1 then NormalEnd
    else BadEnd
  }

  /** The ending block `branch_ending` routes to carries the same ending as
      the title `showEnding` gives for that score. */
  lemma EndingRouteAgreesWithClassify(protagonist: string, score: int, lastChoice: int)
    requires protagonist != HiddenScenario
    ensures EndingRoute(score, lastChoice) == "ending_true" <==> Classify(protagonist, score) == TrueEnd
    ensures EndingRoute(score, lastChoice) == "ending_bad" <==> Classify(protagonist, score) == BadEnd
    ensures Classify(protagonist, score) == NormalEnd <==>
      EndingRoute(score, lastChoice) in {"ending_normal_from_true", "ending_normal_from_bad", "ending_normal"}
  {
  }

  // ----- Persistence -----

  function ClearedKey(protagonist: string): string {
    "cleared_" + protagonist
  }

  /** `saveEndingClear`: set the protagonist's flag, leave every other flag. */
  function SaveEndingClear(storage: map<string, bool>, protagonist: string): (r: map<string, bool>)
    ensures ClearedKey(protagonist) in r && r[ClearedKey(protagonist)]
    ensures forall k :: k != ClearedKey(protagonist) ==> (k in r <==> k in storage)
    ensures forall k :: k != ClearedKey(protagonist) && k in storage ==> r[k] == storage[k]
  {
    storage[ClearedKey(protagonist) := true]
  }

  /** Writing the flag a second time leaves the storage as it was after the first. */
  lemma SaveEndingClearIdempotent(storage: map<string, bool>, protagonist: string)
    ensures SaveEndingClear(SaveEndingClear(storage, protagonist), protagonist) == SaveEndingClear(storage, protagonist)
  {
  }

  /** `checkHiddenScenarioUnlock`: both normal scenarios have been cleared. */
  predicate HiddenUnlocked(storage: map<string, bool>) {
    && ClearedKey(ShouScenario) in storage && storage[ClearedKey(ShouScenario)]
    && ClearedKey(SyouScenario) in storage && storage[ClearedKey(SyouScenario)]
  }

  // ----- Display and ending -----

  /** `displayLine`: a choice line enters the choice scene (`displayChoice`);
      any other line updates the sticky background (only from a non-empty
      value) and character image (from any value that is present). */
  function DisplayLine(st: State, line: Line): (r: State)
    ensures r == st.(isChoiceScene := r.isChoiceScene, background := r.background, charImage := r.charImage)
    ensures r.isChoiceScene <==> st.isChoiceScene || line.lineType == Choice
  {
    if line.lineType == Choice then st.(isChoiceScene := true)
    else
      st.(background := if Truthy(line.background) then line.background.value else st.background,
          charImage := if line.charImage.Some? then line.charImage.value else st.charImage)
  }

  /** `showEnding`. */
  function ShowEnding(st: State): (r: State)
    ensures Ended(st, r)
    ensures r == st.(isPlaying := false, endingShown := r.endingShown, storage := r.storage)
    ensures r.storage == if r.endingShown == Some(TrueEnd) then SaveEndingClear(st.storage, st.protagonist) else st.storage
  {
    var kind := Classify(st.protagonist, st.totalScore);
    st.(storage := if kind == TrueEnd && st.protagonist != HiddenScenario
                   then SaveEndingClear(st.storage, st.protagonist) else st.storage,
        isPlaying := false,
        endingShown := Some(kind))
  }

  /** Reaching an ending never locks the hidden scenario again. */
  lemma ShowEndingKeepsUnlock(st: State)
    requires HiddenUnlocked(st.storage)
    ensures HiddenUnlocked(ShowEnding(st).storage)
  {
  }

  /** A true ending in each normal scenario unlocks the hidden one. */
  lemma BothTrueEndingsUnlock(st1: State, st2: State)
    requires st1.protagonist == ShouScenario && st1.totalScore >= 6
    requires st2.protagonist == SyouScenario && st2.totalScore >= 6
    requires st2.storage == ShowEnding(st1).storage
    ensures HiddenUnlocked(ShowEnding(st2).storage)
  {
    assert ClearedKey(ShouScenario) != ClearedKey(SyouScenario) by {
      assert ClearedKey(ShouScenario)[8] != ClearedKey(SyouScenario)[8];
    }
  }

  // ----- Sticky images -----

  /** The displays of a run of lines, one after the other. */
  function DisplayAll(st: State, lines: seq<Line>): State
    decreases |lines|
  {
    if lines == [] then st else DisplayAll(DisplayLine(st, lines[0]), lines[1..])
  }

  /** The background supplied by the last non-choice line that supplies a non-empty one. */
  function LastBackground(lines: seq<Line>, initial: string): string
    decreases |lines|
  {
    if lines == [] then initial
    else
      var l := lines[|lines| - 1];
      if l.lineType != Choice && Truthy(l.background) then l.background.value
      else LastBackground(lines[..|lines| - 1], initial)
  }

  /** The character image supplied by the last non-choice line that has the field. */
  function LastCharImage(lines: seq<Line>, initial: string): string
    decreases |lines|
  {
    if lines == [] then initial
    else
      var l := lines[|lines| - 1];
      if l.lineType != Choice && l.charImage.Some? then l.charImage.value
      else LastCharImage(lines[..|lines| - 1], initial)
  }

  lemma {:induction false} DisplayAllSnoc(st: State, lines: seq<Line>, l: Line)
    ensures DisplayAll(st, lines + [l]) == DisplayLine(DisplayAll(st, lines), l)
    decreases |lines|
  {
    if lines == [] {
      assert [l][1..] == [];
    } else {
      assert (lines + [l])[1..] == lines[1..] + [l];
      DisplayAllSnoc(DisplayLine(st, lines[0]), lines[1..], l);
    }
  }

  /** The background and character image persist over lines that do not
      supply them and change only when a later line does. */
  lemma {:induction false} StickyImages(st: State, lines: seq<Line>)
    ensures DisplayAll(st, lines).background == LastBackground(lines, st.background)
    ensures DisplayAll(st, lines).charImage == LastCharImage(lines, st.charImage)
    decreases |lines|
  {
    if lines != [] {
      var front, l := lines[..|lines| - 1], lines[|lines| - 1];
      assert lines == front + [l];
      DisplayAllSnoc(st, front, l);
      StickyImages(st, front);
    }
  }

  // ----- Advancing -----

  function Rank(st: State): nat {
    if st.index == 0 then 0 else 1
  }

  /** `advanceScene`. Nothing happens during a choice; inside the block the
      line at the cursor is shown and the cursor moves by one; past the end,
      the terminal line's directive is followed, or else the ending shown.
      Scores never change, and at most the one entry a `branch_ending` line
      pushes is added to the history. */
  function Advance(sc: ScenarioData, st: State): (r: State)
    ensures r.protagonist == st.protagonist
    ensures r.totalScore == st.totalScore && r.lastChoiceScore == st.lastChoiceScore
    ensures st.isChoiceScene ==> r == st
    ensures !st.isChoiceScene && st.index < |Lines(sc, st)| ==>
      && r.block == st.block && r.index == st.index + 1 && r.history == st.history
      && r.isPlaying == st.isPlaying && r.storage == st.storage && r.endingShown == st.endingShown
      && (r.isChoiceScene <==> Lines(sc, st)[st.index].lineType == Choice)
      && r.background == DisplayLine(st, Lines(sc, st)[st.index]).background
      && r.charImage == DisplayLine(st, Lines(sc, st)[st.index]).charImage
    ensures st.index == 0 ==> r.history == st.history
    ensures r.history == st.history || r.history == Push(st.history, Position(st))
    decreases Rank(st), 1
  {
    if st.isChoiceScene then st
    else
      var lines := Lines(sc, st);
      if st.index < |lines| then
        DisplayLine(st, lines[st.index]).(index := st.index + 1)
      else
        var last := TerminalLine(lines);
        var (next, moved) := BlockEnd(sc, st, last);
        if moved then next
        // The source checks for an ending block or an ending marker here, but
        // both of its branches show the ending.
        else if IsEndingBlock(st.block) || last.ending || last.lineType == EndingMarker then ShowEnding(next)
        else ShowEnding(next)
  }

  /** `handleBlockEnd`: the first present directive of `next_block`,
      `next_act`, `branch_act3`, `branch_ending` moves to index 0 of its
      target block and advances; the flag says whether one was present. */
  function BlockEnd(sc: ScenarioData, st: State, last: Line): (r: (State, bool))
    ensures r.1 <==> HasTransition(last)
    ensures !r.1 ==> r.0 == st
    ensures r.0.protagonist == st.protagonist
    ensures r.0.totalScore == st.totalScore && r.0.lastChoiceScore == st.lastChoiceScore
    ensures r.0.history == st.history || r.0.history == Push(st.history, Position(st))
    decreases if HasTransition(last) then 1 else 0, 0
  {
    if Truthy(last.nextBlock) then
      (Advance(sc, st.(block := last.nextBlock.value, index := 0)), true)
    else if Truthy(last.nextAct) then
      (Advance(sc, st.(block := last.nextAct.value, index := 0)), true)
    else if last.branchAct3 then
      (Advance(sc, st.(block := ActRoute(st.totalScore), index := 0)), true)
    else if last.branchEnding then
      var pushed := AddToHistory(st);
      (Advance(sc, pushed.(block := EndingRoute(st.totalScore, st.lastChoiceScore), index := 0)), true)
    else
      (st, false)
  }

  /** Advancing keeps the session invariant: the cursor never passes the end
      of its block, and the history stays bounded and valid. */
  lemma {:induction false} AdvanceInv(sc: ScenarioData, st: State)
    requires Inv(sc, st)
    ensures Inv(sc, Advance(sc, st))
    decreases Rank(st), 1
  {
    if !st.isChoiceScene && st.index >= |Lines(sc, st)| {
      BlockEndInv(sc, st, TerminalLine(Lines(sc, st)));
    }
  }

  lemma {:induction false} BlockEndInv(sc: ScenarioData, st: State, last: Line)
    requires Inv(sc, st)
    ensures Inv(sc, BlockEnd(sc, st, last).0)
    decreases if HasTransition(last) then 1 else 0, 0
  {
    if Truthy(last.nextBlock) {
      AdvanceInv(sc, st.(block := last.nextBlock.value, index := 0));
    } else if Truthy(last.nextAct) {
      AdvanceInv(sc, st.(block := last.nextAct.value, index := 0));
    } else if last.branchAct3 {
      AdvanceInv(sc, st.(block := ActRoute(st.totalScore), index := 0));
    } else if last.branchEnding {
      AddToHistoryInv(sc, st);
      AdvanceInv(sc, AddToHistory(st).(block := EndingRoute(st.totalScore, st.lastChoiceScore), index := 0));
    }
  }

  /** Advancing outside a choice never gets stuck: it either shows a line of
      the block it ends in, or shows the ending for the session's score. */
  lemma {:induction false} AdvanceOutcome(sc: ScenarioData, st: State)
    requires !st.isChoiceScene
    ensures var r := Advance(sc, st);
      (Displayed(sc, r) && r.isPlaying == st.isPlaying && r.endingShown == st.endingShown && r.storage == st.storage)
      || Ended(st, r)
    decreases Rank(st), 1
  {
    if st.index >= |Lines(sc, st)| {
      var last := TerminalLine(Lines(sc, st));
      if HasTransition(last) {
        BlockEndOutcome(sc, st, last);
      }
    }
  }

  lemma {:induction false} BlockEndOutcome(sc: ScenarioData, st: State, last: Line)
    requires !st.isChoiceScene && HasTransition(last)
    ensures var r := BlockEnd(sc, st, last).0;
      (Displayed(sc, r) && r.isPlaying == st.isPlaying && r.endingShown == st.endingShown && r.storage == st.storage)
      || Ended(st, r)
    decreases 1, 0
  {
    if Truthy(last.nextBlock) {
      AdvanceOutcome(sc, st.(block := last.nextBlock.value, index := 0));
    } else if Truthy(last.nextAct) {
      AdvanceOutcome(sc, st.(block := last.nextAct.value, index := 0));
    } else if last.branchAct3 {
      AdvanceOutcome(sc, st.(block := ActRoute(st.totalScore), index := 0));
    } else {
      AdvanceOutcome(sc, AddToHistory(st).(block := EndingRoute(st.totalScore, st.lastChoiceScore), index := 0));
    }
  }

  /** The block a directive-carrying terminal line leads to. */
  function TransitionTarget(last: Line, st: State): string
    requires HasTransition(last)
  {
    if Truthy(last.nextBlock) then last.nextBlock.value
    else if Truthy(last.nextAct) then last.nextAct.value
    else if last.branchAct3 then ActRoute(st.totalScore)
    else EndingRoute(st.totalScore, st.lastChoiceScore)
  }

  /** Only the first present directive acts: two terminal lines that agree on
      it lead to the same session, whatever their later directives say; and
      only `branch_ending` pushes a history entry. */
  lemma BlockEndPriority(sc: ScenarioData, st: State, l1: Line, l2: Line)
    requires HasTransition(l1) && HasTransition(l2)
    requires TransitionTarget(l1, st) == TransitionTarget(l2, st)
    requires (Truthy(l1.nextBlock) || Truthy(l1.nextAct) || l1.branchAct3) <==>
             (Truthy(l2.nextBlock) || Truthy(l2.nextAct) || l2.branchAct3)
    ensures BlockEnd(sc, st, l1) == BlockEnd(sc, st, l2)
  {
  }

  /** A directive whose target block has lines shows that block's first
      line; only `branch_ending` records the position it leaves. */
  lemma BlockEndTarget(sc: ScenarioData, st: State, last: Line)
    requires !st.isChoiceScene && HasTransition(last)
    requires |BlockLines(sc, st.protagonist, TransitionTarget(last, st))| > 0
    ensures var r := BlockEnd(sc, st, last).0;
      && r.block == TransitionTarget(last, st) && r.index == 1 && r.isPlaying == st.isPlaying
      && r.history == if Truthy(last.nextBlock) || Truthy(last.nextAct) || last.branchAct3
                      then st.history else Push(st.history, Position(st))
  {
  }

  /** When a block ends without any directive, the ending is shown. */
  lemma NoDirectiveShowsEnding(sc: ScenarioData, st: State)
    requires !st.isChoiceScene && st.index >= |Lines(sc, st)|
    requires !HasTransition(TerminalLine(Lines(sc, st)))
    ensures Advance(sc, st) == ShowEnding(st)
  {
  }

  /** `k` advances, one after the other. */
  function AdvanceN(sc: ScenarioData, st: State, k: nat): State
    decreases k
  {
    if k == 0 then st else Advance(sc, AdvanceN(sc, st, k - 1))
  }

  /** One advance on a line inside the block that is not a choice shows it
      and moves the cursor on; the block and its lines stay the same. */
  lemma AdvancePlainLine(sc: ScenarioData, st: State)
    requires !st.isChoiceScene && st.index < |Lines(sc, st)|
    requires Lines(sc, st)[st.index].lineType != Choice
    ensures var r := Advance(sc, st);
      && r.block == st.block && r.index == st.index + 1 && !r.isChoiceScene
      && r.background == DisplayLine(st, Lines(sc, st)[st.index]).background
      && r.charImage == DisplayLine(st, Lines(sc, st)[st.index]).charImage
      && Lines(sc, r) == Lines(sc, st)
  {
  }

  /** The images a run of `k` plain lines leaves, and where the cursor is. */
  predicate ShowedPlainLines(sc: ScenarioData, st: State, k: nat, r: State)
    requires st.index + k <= |Lines(sc, st)|
  {
    var shown := Lines(sc, st)[st.index..st.index + k];
    && r.protagonist == st.protagonist && r.block == st.block && r.index == st.index + k
    && !r.isChoiceScene
    && r.background == LastBackground(shown, st.background)
    && r.charImage == LastCharImage(shown, st.charImage)
  }

  /** Showing one more plain line extends a run of plain lines by one. */
  lemma ShowedOneMore(sc: ScenarioData, st: State, k: nat, mid: State)
    requires st.index + k < |Lines(sc, st)|
    requires Lines(sc, st)[st.index + k].lineType != Choice
    requires ShowedPlainLines(sc, st, k, mid)
    ensures ShowedPlainLines(sc, st, k + 1, Advance(sc, mid))
  {
    var lines, i := Lines(sc, st), st.index;
    assert Lines(sc, mid) == lines;
    AdvancePlainLine(sc, mid);
    var shown := lines[i..i + k + 1];
    assert shown[..k] == lines[i..i + k] && shown[k] == lines[i + k];
  }

  /** Advancing through `k` lines of a block that are not choices shows them
      in order, and leaves on screen the background and character image the
      last of them to supply one set (the earlier ones when none does). */
  lemma {:induction false} AdvanceImages(sc: ScenarioData, st: State, k: nat)
    requires !st.isChoiceScene && st.index + k <= |Lines(sc, st)|
    requires forall j :: st.index <= j < st.index + k ==> Lines(sc, st)[j].lineType != Choice
    ensures ShowedPlainLines(sc, st, k, AdvanceN(sc, st, k))
    decreases k
  {
    if k == 0 {
      assert Lines(sc, st)[st.index..st.index] == [];
    } else {
      AdvanceImages(sc, st, k - 1);
      ShowedOneMore(sc, st, k - 1, AdvanceN(sc, st, k - 1));
    }
  }

  // ----- Session start, choices, taps and going back -----

  /** The session `selectProtagonist` sets up before its first advance: the
      scenario's first block ("main" for the hidden scenario, "act1"
      otherwise), zero scores, no history. The persisted flags and the last
      ending screen are kept. */
  function Initial(st: State, protagonist: string): State {
    State(protagonist, if protagonist == HiddenScenario then "main" else "act1", 0, 0, 0,
          true, false, "", "", [], st.storage, st.endingShown)
  }

  /** `selectProtagonist`: a fresh session, then one advance. */
  function Start(sc: ScenarioData, st: State, protagonist: string): (r: State)
    ensures r.protagonist == protagonist
    ensures r.totalScore == 0 && r.lastChoiceScore == 0
    ensures r.history == []
  {
    Advance(sc, Initial(st, protagonist))
  }

  /** A new session satisfies the invariant and shows either the first line
      of its first block or, when that block has no lines, the ending. */
  lemma StartInvOutcome(sc: ScenarioData, st: State, protagonist: string)
    ensures var r := Start(sc, st, protagonist);
      && Inv(sc, r)
      && ((r.isPlaying && r.index == 1 && r.block == Initial(st, protagonist).block) || (Ended(r, r) && r.storage == st.storage))
  {
    var init := Initial(st, protagonist);
    AdvanceInv(sc, init);
    AdvanceOutcome(sc, init);
  }

  /** `option.score`, or 0 when absent. */
  function ScoreOf(option: ChoiceOption): int {
    match option.score
    case Some(s) => s
    case None => 0
  }

  /** The scores and choice flag once `selectChoice` has taken the option. */
  function Scored(st: State, option: ChoiceOption): State {
    st.(totalScore := st.totalScore + ScoreOf(option), lastChoiceScore := ScoreOf(option), isChoiceScene := false)
  }

  /** The session after `selectChoice` has resolved the option and before it advances. */
  function Chosen(st: State, option: ChoiceOption): State {
    var pushed := AddToHistory(Scored(st, option));
    if Truthy(option.nextBlock) then pushed.(block := option.nextBlock.value, index := 0)
    else pushed
  }

  lemma ChosenInv(sc: ScenarioData, st: State, option: ChoiceOption)
    requires Inv(sc, st)
    ensures Inv(sc, Chosen(st, option))
  {
    assert Inv(sc, Scored(st, option));
    AddToHistoryInv(sc, Scored(st, option));
  }

  /** `selectChoice`: the option's score (0 if absent) is added to the total
      and becomes the last choice score; the choice is cleared; one history
      entry is pushed, or two when the advance reaches a `branch_ending` block
      end; the session moves to the option's block, if any, and advances, so
      the line shown next sets the sticky images and raises the choice again
      when it is one. */
  function SelectChoice(sc: ScenarioData, st: State, option: ChoiceOption): (r: State)
    ensures r.totalScore == st.totalScore + ScoreOf(option)
    ensures r.lastChoiceScore == ScoreOf(option)
    ensures Truthy(option.nextBlock) ==>
      r.history == Push(st.history, Snapshot(st.block, st.index, r.totalScore, r.lastChoiceScore))
    ensures Truthy(option.nextBlock) && |BlockLines(sc, st.protagonist, option.nextBlock.value)| > 0 ==>
      var first := BlockLines(sc, st.protagonist, option.nextBlock.value)[0];
      && r.block == option.nextBlock.value && r.index == 1 && r.isPlaying == st.isPlaying
      && (r.isChoiceScene <==> first.lineType == Choice)
      && r.background == DisplayLine(Scored(st, option), first).background
      && r.charImage == DisplayLine(Scored(st, option), first).charImage
    ensures !Truthy(option.nextBlock) && st.index < |Lines(sc, st)| ==>
      var next := Lines(sc, st)[st.index];
      && r.block == st.block && r.index == st.index + 1 && r.isPlaying == st.isPlaying
      && r.history == Push(st.history, Snapshot(st.block, st.index, r.totalScore, r.lastChoiceScore))
      && (r.isChoiceScene <==> next.lineType == Choice)
      && r.background == DisplayLine(Scored(st, option), next).background
      && r.charImage == DisplayLine(Scored(st, option), next).charImage
    ensures var taken := Snapshot(st.block, st.index, r.totalScore, r.lastChoiceScore);
      r.history == Push(st.history, taken) || r.history == Push(Push(st.history, taken), taken)
  {
    Advance(sc, Chosen(st, option))
  }

  /** A click on the game screen records the position and advances: a
      session is playing outside a choice, its block exists, the cursor is
      not past it, and no line is still being typed out. */
  predicate TapAccepted(sc: ScenarioData, st: State, stillTyping: bool) {
    && st.isPlaying && !st.isChoiceScene
    && Lookup(sc, st.protagonist, st.block).Some?
    && st.index <= |Lines(sc, st)|
    && !(1 <= st.index && stillTyping)
  }

  /** `handleGameScreenClick` for a click on the game screen itself: ignored
      when no session is playing, during a choice, when the block is absent or
      the cursor is past it; while the current line is still being typed out
      (`stillTyping`) the click only completes the text; otherwise it pushes a
      history entry and advances. */
  function HandleTap(sc: ScenarioData, st: State, stillTyping: bool): (r: State)
    ensures !st.isPlaying || st.isChoiceScene ==> r == st
    ensures Lookup(sc, st.protagonist, st.block).None? ==> r == st
    ensures 1 <= st.index && stillTyping ==> r == st
    ensures r.totalScore == st.totalScore && r.lastChoiceScore == st.lastChoiceScore
    ensures TapAccepted(sc, st, stillTyping) ==>
      r.history == Push(st.history, Position(st)) || r.history == Push(Push(st.history, Position(st)), Position(st))
    ensures TapAccepted(sc, st, stillTyping) && st.index < |Lines(sc, st)| ==>
      && r.block == st.block && r.index == st.index + 1 && r.isPlaying
      && r.history == Push(st.history, Position(st))
  {
    if !st.isPlaying || st.isChoiceScene then st
    else
      match Lookup(sc, st.protagonist, st.block)
      case None => st
      case Some(lines) =>
        if st.index > |lines| then st
        else if 1 <= st.index && stillTyping then st
        else Advance(sc, AddToHistory(st))
  }

  /** The history and cursor `goBack` restores before it advances. */
  function Rewound(st: State): State
    requires |st.history| >= 2
  {
    var h := st.history;
    Restore(st.(history := h[..|h| - 2]), h[|h| - 2])
  }

  /** `goBack`: with fewer than two entries nothing changes; otherwise the last
      two entries are removed, the older one's position and scores restored,
      and the session advances from there. The choice scene is not checked. */
  function GoBack(sc: ScenarioData, st: State): (r: State)
    ensures |st.history| < 2 ==> r == st
    ensures |st.history| >= 2 ==>
      var prev := st.history[|st.history| - 2];
      && r.totalScore == prev.totalScore && r.lastChoiceScore == prev.lastChoiceScore
      && (st.isChoiceScene ==> r == Restore(st, prev).(history := st.history[..|st.history| - 2]))
      && (!st.isChoiceScene && prev.index < |BlockLines(sc, st.protagonist, prev.block)| ==>
            r.block == prev.block && r.index == prev.index + 1 && r.history == st.history[..|st.history| - 2])
    ensures |st.history| >= 2 ==>
      var kept := st.history[..|st.history| - 2];
      r.history == kept || r.history == Push(kept, st.history[|st.history| - 2])
  {
    if |st.history| < 2 then st else Advance(sc, Rewound(st))
  }

  lemma RewoundInv(sc: ScenarioData, st: State)
    requires Inv(sc, st) && |st.history| >= 2
    ensures Inv(sc, Rewound(st))
  {
    var h := st.history;
    assert SnapshotValid(sc, st.protagonist, h[|h| - 2]);
    forall k | 0 <= k < |Rewound(st).history|
      ensures SnapshotValid(sc, st.protagonist, Rewound(st).history[k])
    {
      assert Rewound(st).history[k] == h[k];
    }
  }

  /** `updateBackButtonVisibility`'s condition. */
  predicate BackButtonVisible(st: State) {
    |st.history| > 1 && !st.isChoiceScene
  }

  /** While the back button is visible, pressing it removes history: going
      back pushes at most the one entry a `branch_ending` line adds. */
  lemma VisibleBackShortensHistory(sc: ScenarioData, st: State)
    requires Inv(sc, st) && BackButtonVisible(st)
    ensures |GoBack(sc, st).history| < |st.history|
  {
  }

  // ----- Sessions as sequences of inputs -----

  function Step(sc: ScenarioData, st: State, input: Input): State {
    match input
    case Tap(stillTyping) => HandleTap(sc, st, stillTyping)
    case Choose(option) => SelectChoice(sc, st, option)
    case Back => GoBack(sc, st)
  }

  lemma HandleTapInv(sc: ScenarioData, st: State, stillTyping: bool)
    requires Inv(sc, st)
    ensures Inv(sc, HandleTap(sc, st, stillTyping))
  {
    AddToHistoryInv(sc, st);
    AdvanceInv(sc, AddToHistory(st));
  }

  lemma SelectChoiceInv(sc: ScenarioData, st: State, option: ChoiceOption)
    requires Inv(sc, st)
    ensures Inv(sc, SelectChoice(sc, st, option))
  {
    ChosenInv(sc, st, option);
    AdvanceInv(sc, Chosen(st, option));
  }

  lemma GoBackInv(sc: ScenarioData, st: State)
    requires Inv(sc, st)
    ensures Inv(sc, GoBack(sc, st))
  {
    if |st.history| >= 2 {
      RewoundInv(sc, st);
      AdvanceInv(sc, Rewound(st));
    }
  }

  /** Every input keeps the session invariant. */
  lemma StepInv(sc: ScenarioData, st: State, input: Input)
    requires Inv(sc, st)
    ensures Inv(sc, Step(sc, st, input))
  {
    match input
    case Tap(stillTyping) => HandleTapInv(sc, st, stillTyping);
    case Choose(option) => SelectChoiceInv(sc, st, option);
    case Back => GoBackInv(sc, st);
  }

  function Run(sc: ScenarioData, st: State, inputs: seq<Input>): State
    decreases |inputs|
  {
    if inputs == [] then st else Run(sc, Step(sc, st, inputs[0]), inputs[1..])
  }

  /** The sum of the scores of the options chosen in `inputs`. */
  function ChoiceTotal(inputs: seq<Input>): int
    decreases |inputs|
  {
    if inputs == [] then 0
    else (if inputs[0].Choose? then ScoreOf(inputs[0].option) else 0) + ChoiceTotal(inputs[1..])
  }

  predicate NoBack(inputs: seq<Input>) {
    forall k :: 0 <= k < |inputs| ==> !inputs[k].Back?
  }

  /** Any sequence of inputs keeps the session invariant. */
  lemma {:induction false} RunInv(sc: ScenarioData, st: State, inputs: seq<Input>)
    requires Inv(sc, st)
    ensures Inv(sc, Run(sc, st, inputs))
    decreases |inputs|
  {
    if inputs != [] {
      StepInv(sc, st, inputs[0]);
      RunInv(sc, Step(sc, st, inputs[0]), inputs[1..]);
    }
  }

  /** Without going back, the total score is the initial one plus the scores
      of all chosen options. */
  lemma {:induction false} RunScore(sc: ScenarioData, st: State, inputs: seq<Input>)
    requires NoBack(inputs)
    ensures Run(sc, st, inputs).totalScore == st.totalScore + ChoiceTotal(inputs)
    decreases |inputs|
  {
    if inputs != [] {
      assert NoBack(inputs[1..]) by {
        forall k | 0 <= k < |inputs[1..]| ensures !inputs[1..][k].Back? {
          assert inputs[1..][k] == inputs[k + 1];
        }
      }
      RunScore(sc, Step(sc, st, inputs[0]), inputs[1..]);
    }
  }

  /** A whole playthrough without going back ends with the sum of the chosen
      scores, and with the session invariant intact. */
  lemma PlaythroughScore(sc: ScenarioData, st: State, protagonist: string, inputs: seq<Input>)
    requires NoBack(inputs)
    ensures Run(sc, Start(sc, st, protagonist), inputs).totalScore == ChoiceTotal(inputs)
    ensures Inv(sc, Run(sc, Start(sc, st, protagonist), inputs))
  {
    RunScore(sc, Start(sc, st, protagonist), inputs);
    StartInvOutcome(sc, st, protagonist);
    RunInv(sc, Start(sc, st, protagonist), inputs);
  }
}
